=== FILE: README.md ===
# Travel planner: record store, value codec and list view

This project models the core of a travel-planning web app. The app keeps travel plans in a
contract's key/value storage. Each plan has:

- a destination;
- a budget and a number of days, stored as "FHE-" tokens;
- a timestamp;
- an owner address;
- a status: planning, booked or cancelled.

The model covers:

- **The value codec** (`FHEEncryptNumber` / `FHEDecryptNumber`).
  - Encoding writes the number in decimal, base64-encodes the text the way `btoa` does
    (section 4 of RFC 4648), and puts "FHE-" in front.
  - Decoding strips the prefix, decodes the way `atob` does (the forgiving-base64 decode of
    the WHATWG Infra Standard, which `atob` uses), and parses the text the way `parseFloat` does.
  - A token without the prefix is parsed directly.
  - Files: `base64.dfy`, `codec.dfy`.
- **The storage and its keys** (`records.dfy`).
  - One map from key to payload.
  - The index of record ids lives under `travel_keys`; each record lives under `travel_<id>`.
- **The stable newest-first sort** of the loaded list (`sorting.dfy`).
  - `NewestFirst` is a stable insertion sort on sequences.
  - `SortNewestFirst` performs it in place on an array.
- **`loadRecords`, `submitRecord`, `bookTrip` and `cancelTrip`** (`sync.dfy`).
  - These are methods of the class `TravelApp`.
  - Its fields are the storage, the connection state and the list the view shows.
  - A ghost log records the keys written, in order.
  - Each method is proved against a specification function of the old storage:
    `Reloaded`, `AfterCreate`, `AfterStatus`, `CreateOutcome`, `StatusOutcome`.
  - What the app promises is proved as lemmas about those functions.
- **The view derivations** (`view.dfy`):
  - the search and status filter;
  - the per-status counts;
  - the owner check;
  - the Book/Cancel buttons;
  - the enabling of the Create button.

Behaviour of the code worth knowing:

- **Invalid base64 throws.** A prefixed token whose body is not valid base64 makes `atob`
  throw, so `FHEDecryptNumber` throws instead of returning NaN. The model has three results:
  `Number`, `NaN` and `Throws`. `Codec.DecryptInvalidBase64` shows the throwing case.
- **`submitRecord` does not check its inputs.** The checks on destination and budget live
  only on the Create button (`View.CreateEnabled`). Days are never checked: `parseInt(...) || 1`
  can produce any non-zero integer. So `SubmitRecord` has no precondition, and the codec takes
  any integer, negative ones included.
- **Malformed JSON is not the only thing that breaks reads.** An index key holding a JSON
  *object* parses, but cannot be iterated or pushed onto:
  - the reload throws, and its outer `catch` leaves the list as it was;
  - a create throws after the record write, leaving that record unreachable.
  The model keeps both behaviours: `Sync.TravelApp.LoadRecords`, `Sync.FailedCreateOrphansRecord`.
- **The id "keys" names the index itself.** Its record key is the index key, and the model
  keeps that collision (`Records.RecordKey`). Generated ids begin with the digits of `Date.now()`,
  so a generated id never collides.

## Model

All source paths are under `frontend/web/src/`.

| member | source | states |
|---|---|---|
| Base64.Encode | frontend/web/src/App.tsx:21 | `btoa` output has length 4·⌈n/3⌉, a multiple of four |
| Base64.Decode | frontend/web/src/App.tsx:26 | `atob` removes white space and padding and gives three bytes per four remaining characters, rounded down; `Base64.RoundTrip` and `Base64.RejectsForeignCharacter` state when it succeeds |
| Base64.RoundTrip | frontend/web/src/App.tsx:21-26 | `atob(btoa(b)) == b` for every byte string |
| Base64.RejectsForeignCharacter | frontend/web/src/App.tsx:26 | any character that is not whitespace, '=' or in the alphabet makes `atob` fail |
| Codec.Decimal | frontend/web/src/App.tsx:21 | `toString` of a natural number is non-empty, all digits, and has no leading zero |
| Codec.DecimalValue | frontend/web/src/App.tsx:21 | reading the decimal digits back gives the number |
| Codec.NumberText | frontend/web/src/App.tsx:21 | `toString` of an integer starts with a digit or '-', and all its characters fit in one byte, so `btoa` accepts it |
| Codec.EncryptNumber | frontend/web/src/App.tsx:20-22 | every token carries the "FHE-" prefix |
| Codec.ParseNumber | frontend/web/src/App.tsx:26-28 | `parseFloat` finds a number only in text that holds a digit; `Codec.ParseNumberText` and `Codec.ParseIgnoresSuffix` pin the value it reads |
| Codec.DecryptNumber | frontend/web/src/App.tsx:24-29 | decryption throws only on a prefixed token (from `atob`); `Codec.DecryptEncrypt` makes it the inverse of encryption |
| Codec.Btoa | frontend/web/src/App.tsx:21 | `btoa` succeeds exactly when every character is at most U+00FF, and its output length is a multiple of four |
| Codec.Atob | frontend/web/src/App.tsx:26 | `atob` gives one character per byte, each at most U+00FF |
| Codec.AtobBtoa | frontend/web/src/App.tsx:21-26 | `atob` undoes `btoa` on every string that `btoa` accepts |
| Codec.ParseNumberText | frontend/web/src/App.tsx:21-28 | `parseFloat` of the `toString` of an integer gives that integer |
| Codec.DecryptEncrypt | frontend/web/src/App.tsx:20-29 | decrypting the token of any integer gives that integer back |
| Codec.DecryptPlainDecimal | frontend/web/src/App.tsx:28 | an unprefixed decimal text takes the `parseFloat` path and gives its number |
| Codec.ParseIgnoresSuffix | frontend/web/src/App.tsx:26-28 | `parseFloat` reads the leading number and ignores the text after it, when that text starts with no digit, decimal point or exponent mark |
| Codec.NonNumericIsNaN | frontend/web/src/App.tsx:28 | unprefixed text whose first character is no digit, white space, sign, decimal point or "I" decrypts to NaN |
| Codec.DecryptInvalidBase64 | frontend/web/src/App.tsx:25-26 | a prefixed token with a body that is not base64 makes decryption throw |
| Codec.EncryptExample | frontend/web/src/App.tsx:21 | the token for 100 is "FHE-MTAw" |
| Records.RecordKey | frontend/web/src/App.tsx:94 | the record key equals the index key exactly when the id is "keys" |
| Records.RecordKeyInjective | frontend/web/src/App.tsx:94 | distinct ids have distinct record keys |
| Records.IndexIds | frontend/web/src/App.tsx:83-90 | the index read gives the stored id list, and an empty or unparsable index gives an empty list |
| Sync.UnreadableIndexReloadsEmpty | frontend/web/src/App.tsx:83-112 | an index that is empty or does not parse lets the reload go ahead and sets the list to empty |
| Records.FromStored | frontend/web/src/App.tsx:98-106 | a listed record copies the stored fields; a missing status reads as planning |
| Sorting.NewestFirst | frontend/web/src/App.tsx:111 | the sort keeps the length of the list; `Sorting.NewestFirstSorted`, `Sorting.NewestFirstPermutes` and `Sorting.NewestFirstStable` state that it is a stable newest-first permutation |
| Sorting.NewestFirstSorted | frontend/web/src/App.tsx:111 | the sorted list is non-increasing by timestamp |
| Sorting.NewestFirstPermutes | frontend/web/src/App.tsx:111 | the sorted list is a permutation of the loaded list |
| Sorting.NewestFirstStable | frontend/web/src/App.tsx:111 | records with equal timestamps keep their index order |
| Sorting.SortExample | frontend/web/src/App.tsx:111 | timestamps 5, 10, 1 sort to 10, 5, 1 |
| Sorting.NewestFirstRestatus | frontend/web/src/App.tsx:111 | changing statuses commutes with the sort, so no record moves |
| Sorting.SortNewestFirst | frontend/web/src/App.tsx:111 | the in-place array sort leaves exactly the stable newest-first order |
| Sorting.InsertStep | frontend/web/src/App.tsx:111 | one insertion step places the next record after every record at least as recent |
| Sync.Entry | frontend/web/src/App.tsx:94-108 | an id contributes one record, carrying that id, exactly when its key holds a readable record, and nothing otherwise |
| Sync.Collect | frontend/web/src/App.tsx:92-110 | the loop lists at most one record per index entry; `Sync.CollectLoadsExactly` states which records, in which order |
| Sync.Reloaded | frontend/web/src/App.tsx:91-111 | a reload lists at most one record per index entry; `Sync.ReloadedIsStableSort` states that it is the collected records sorted newest first |
| Sync.LoadableIds | frontend/web/src/App.tsx:92-110 | an id is loadable exactly when it is in the index and its key holds a readable record |
| Sync.CollectLoadsExactly | frontend/web/src/App.tsx:92-110 | the loop lists one record per loadable id, in index order, with the stored fields |
| Sync.SkipsMalformedRecord | frontend/web/src/App.tsx:92-110 | with index a, b, c and b malformed, only a and c load |
| Sync.ReloadedIsStableSort | frontend/web/src/App.tsx:91-112 | the reloaded list is a stable newest-first permutation of the collected records |
| Sync.Reloads | frontend/web/src/App.tsx:79-82 | a reload goes ahead only with a contract that is available and an index that is no object; `Sync.TravelApp.LoadRecords` keeps the old list otherwise |
| Sync.TravelApp.LoadRecords | frontend/web/src/App.tsx:76-115 | the list becomes the reload of the storage when a contract is there, is available and the index is iterable; otherwise it is unchanged (so two reloads with no write between agree) |
| Sync.TravelApp.CollectRecords | frontend/web/src/App.tsx:91-110 | the loop collects exactly the readable records of the given ids |
| Sync.TravelApp.SubmitRecord | frontend/web/src/App.tsx:117-156 | the outcome and the new storage, writes and list follow the source's checks and write order |
| Sync.TravelApp.WriteAndReload | frontend/web/src/App.tsx:135-145 | the record is written, then the index, then the list reloads; an object index stops after the first write |
| Sync.TravelApp.WriteRecordAndIndex | frontend/web/src/App.tsx:135-143 | the record write comes first, then the index is written with the id appended |
| Sync.NewRecord | frontend/web/src/App.tsx:127-134 | the stored object reads as planning, and its budget and days tokens decrypt to the submitted numbers |
| Sync.AfterCreate | frontend/web/src/App.tsx:135-143 | a create stores its record under its key (unless the id is "keys") and changes no key but that one and the index |
| Sync.CreateOutcome | frontend/web/src/App.tsx:117-143 | a create succeeds exactly with a wallet, a contract, an id other than "keys" and an index that is not an object; it never fails as not found or unreadable |
| Sync.CreateAppendsToIndex | frontend/web/src/App.tsx:135-143 | after a create the index is the old index plus the id, the record is stored, and no other key changes |
| Sync.CreateThenReload | frontend/web/src/App.tsx:117-145 | after a create, a reload lists a planning record with that id, owner and destination, whose budget and days decrypt to the submitted values |
| Sync.EnabledCreateListsValidPlan | frontend/web/src/App.tsx:513 | what the Create button lets through lists with a destination and a budget that decrypts to a positive number |
| Sync.FailedCreateOrphansRecord | frontend/web/src/App.tsx:135-143 | a create that fails at an object index leaves its record stored and the object index unchanged, so later reloads keep failing and never list the record |
| Sync.AfterStatus | frontend/web/src/App.tsx:176-180 | a status write adds and removes no key; `Sync.StatusChangesOnlyStatus` states that only the status changes |
| Sync.StatusOutcome | frontend/web/src/App.tsx:170-208 | a status write succeeds only on a readable record; it fails as not found only on an empty payload |
| Sync.MissingRecordNotFound | frontend/web/src/App.tsx:176-177 | an id whose key holds nothing fails as not found, and a status write of any status leaves the storage as it was |
| Sync.TravelApp.UpdateStatus | frontend/web/src/App.tsx:170-208 | on success only the record's status is rewritten, once, and the list reloads; on failure nothing is written |
| Sync.TravelApp.BookTrip | frontend/web/src/App.tsx:170-188 | bookTrip sets the status to booked, under the same checks |
| Sync.TravelApp.CancelTrip | frontend/web/src/App.tsx:190-208 | cancelTrip sets the status to cancelled, under the same checks |
| Sync.StatusChangesOnlyStatus | frontend/web/src/App.tsx:176-180 | a status write keeps the index, every other key and every other field |
| Sync.ReloadAfterStatus | frontend/web/src/App.tsx:176-182 | the reload after a status write is the old list, in the same order, with only that record's status changed |
| Sync.ListedRecordIsWritable | frontend/web/src/App.tsx:176-180 | a status write on any listed record finds it and succeeds |
| Sync.BookThenCancel | frontend/web/src/App.tsx:176-200 | booking and then cancelling leaves the record cancelled |
| Sync.TravelApp.constructor | frontend/web/src/App.tsx:37 | the list starts empty and nothing has been written |
| View.Lower | frontend/web/src/App.tsx:210 | `toLowerCase` keeps the length, leaves no upper-case ASCII letter, and is idempotent (`View.LowerIdempotent`) |
| View.Contains | frontend/web/src/App.tsx:213 | `includes` holds for the empty needle, and only for a needle no longer than the text |
| View.Matches | frontend/web/src/App.tsx:213-214 | an empty search lets every destination through, leaving only the status filter |
| View.Filtered | frontend/web/src/App.tsx:212-216 | a record is in the view exactly when it is in the list and matches both the search and the status filter, and every matching record appears as many times as in the list |
| View.FilteredIsSubsequence | frontend/web/src/App.tsx:212-216 | the view keeps the order of the list |
| View.SearchExample | frontend/web/src/App.tsx:212-216 | the search "par" over Paris and Tokyo gives exactly Paris |
| View.Count | frontend/web/src/App.tsx:56-58 | a count never exceeds the number of records |
| View.CountsSum | frontend/web/src/App.tsx:56-58 | the three counts add up to the number of records |
| View.CountIsFilteredSize | frontend/web/src/App.tsx:56-58 | each count is the size of the view filtered on that status |
| View.CreateEnabled | frontend/web/src/App.tsx:513 | the Create button is enabled with no create running, a destination and a positive budget; `Sync.EnabledCreateListsValidPlan` states what it lets through |
| View.IsOwner | frontend/web/src/App.tsx:210 | with no wallet connected nobody is the owner |
| View.OwnerIgnoresCase | frontend/web/src/App.tsx:210 | the owner check ignores case on either side, is symmetric, and is reflexive |
| View.Actions | frontend/web/src/App.tsx:391-414 | Book shows exactly for the owner of a planning record; Cancel shows exactly for the owner of a record that is not cancelled |
| View.ActionsAreAllowedTransitions | frontend/web/src/App.tsx:623-646 | every button makes an allowed change, and every allowed change has a button for the owner |

## Left out

- Wallet connection, message signing, `decryptWithSignature` with its reveal states, the
  1.5-second delay and the signature parameters are left out. They do not touch the stored
  records.
- The contract is modelled as a map:
  - the contract helpers become the `contractReady` flag;
  - `isAvailable` becomes the `available` field;
  - `setData` is assumed to succeed; a rejected write, and a `getData` call that throws, are
    not modelled.
- `Date.now()` and `Math.random()` become parameters: the id and the timestamp.
- UTF-8 and JSON are abstracted into `Payload`:
  - a record key that holds JSON other than an object is read as unreadable. On a reload it
    is skipped; for an array, a string or a number the source would list an entry with
    undefined fields. On book/cancel the source spreads such a payload into an object, writes
    it with the new status and succeeds; the model fails as unreadable and writes nothing;
  - an index that parses to a string, a number or `null` is read as an empty list. On a
    reload the source would iterate a string's characters, and would fail on a number or
    `null` as it does on an object. On a create, `keys.push` throws for all three, so the
    source fails after the record write and leaves that record orphaned, while the model
    succeeds with the index `[id]`;
  - the index ids are taken to be strings.
- `Sync.TravelApp.UpdateStatus` on the id "keys", whose key holds the index list, fails as
  unreadable. The source would spread the list into an object and write that over the index.
- Status strings other than the three values are not modelled. A missing or empty status
  reads as planning.
- Numbers are integers:
  - budgets from `parseFloat` can have fractions, and `toString` can write exponents;
  - `Codec.ParseNumber` reads only the integer prefix (no ".5", exponent or "Infinity"), so
    `Codec.ParseIgnoresSuffix` and `Codec.NonNumericIsNaN` exclude text where `parseFloat`
    would read a fraction, an exponent or "Infinity".
- `View.Lower` lowercases ASCII letters only; `toLowerCase` covers all of Unicode.
- The following are not modelled, because they do not change the storage or the list:
  - races between sessions on the index key;
  - the `creating` and refresh flags, beyond `View.CreateEnabled`;
  - notifications and error messages;
  - chart percentages and the markup.

=== FILE: base64.dfy ===
/**
 * Base64 with the standard alphabet and '=' padding (section 4 of RFC 4648),
 * as the browser's `btoa` produces it, and the "forgiving" decoder behind
 * `atob`: ASCII whitespace is ignored, a final '=' or '==' may be left out,
 * a length that leaves a remainder of 1 modulo 4 or a character outside the
 * alphabet is an error (`atob` throws; here: None).
 */
module Base64 {
  import opened Wrappers

  newtype byte = x: int | 0 <= x < 256

  /** The 6-bit value of an alphabet character, or None outside the alphabet. */
  function ValueOf(c: char): (r: Option<int>)
    ensures r.Some? ==> 0 <= r.value < 64
  {
    if 'A' <= c <= 'Z' then Some(c as int - 'A' as int)
    else if 'a' <= c <= 'z' then Some(c as int - 'a' as int + 26)
    else if '0' <= c <= '9' then Some(c as int - '0' as int + 52)
    else if c == '+' then Some(62)
    else if c == '/' then Some(63)
    else None
  }

  predicate IsAlphabetChar(c: char) {
    ValueOf(c).Some?
  }

  /** The alphabet character for a 6-bit value: A-Z, a-z, 0-9, '+', '/'. */
  function CharOf(v: int): (c: char)
    requires 0 <= v < 64
    ensures ValueOf(c) == Some(v)
  {
    if v < 26 then ('A' as int + v) as char
    else if v < 52 then ('a' as int + v - 26) as char
    else if v < 62 then ('0' as int + v - 52) as char
    else if v == 62 then '+'
    else '/'
  }

  /** Three bytes become four characters, six bits each, most significant first. */
  function EncodeQuantum(b0: byte, b1: byte, b2: byte): string {
    [ CharOf(b0 as int / 4),
      CharOf((b0 as int % 4) * 16 + b1 as int / 16),
      CharOf((b1 as int % 16) * 4 + b2 as int / 64),
      CharOf(b2 as int % 64) ]
  }

  /** The encoding without its final padding characters. */
  function EncodeUnpadded(b: seq<byte>): (s: string)
    ensures forall i :: 0 <= i < |s| ==> IsAlphabetChar(s[i])
    ensures |s| == (4 * |b| + 2) / 3
    ensures |s| % 4 != 1
  {
    if |b| >= 3 then
      EncodeQuantum(b[0], b[1], b[2]) + EncodeUnpadded(b[3..])
    else if |b| == 2 then
      [CharOf(b[0] as int / 4), CharOf((b[0] as int % 4) * 16 + b[1] as int / 16), CharOf((b[1] as int % 16) * 4)]
    else if |b| == 1 then
      [CharOf(b[0] as int / 4), CharOf((b[0] as int % 4) * 16)]
    else []
  }

  /** '=' characters that complete the final quantum to four characters. */
  function Padding(n: nat): string {
    if n % 3 == 1 then "==" else if n % 3 == 2 then "=" else ""
  }

  /** `btoa` on a byte string. */
  function Encode(b: seq<byte>): (s: string)
    ensures |s| % 4 == 0 && |s| == 4 * ((|b| + 2) / 3)
  {
    EncodedLength(|b|);
    EncodeUnpadded(b) + Padding(|b|)
  }

  lemma EncodedLength(n: nat)
    ensures var u := (4 * n + 2) / 3;
            u + |Padding(n)| == 4 * ((n + 2) / 3) && (u + |Padding(n)|) % 4 == 0
  {
    var q, r := n / 3, n % 3;
    assert n == 3 * q + r;
    if r == 0 {
      DivideByThree(4 * n + 2, 4 * q, 2);
      DivideByThree(n + 2, q, 2);
    } else if r == 1 {
      DivideByThree(4 * n + 2, 4 * q + 2, 0);
      DivideByThree(n + 2, q + 1, 0);
    } else {
      DivideByThree(4 * n + 2, 4 * q + 3, 1);
      DivideByThree(n + 2, q + 1, 1);
    }
  }

  lemma DivideByThree(x: int, m: int, r: int)
    requires x == 3 * m + r && 0 <= r < 3
    ensures x / 3 == m
  {
  }

  /** The ASCII whitespace that the forgiving decoder skips. */
  predicate IsAsciiWhitespace(c: char) {
    c == '\t' || c == '\n' || c == '\U{C}' || c == '\r' || c == ' '
  }

  function RemoveWhitespace(s: string): (r: string)
    ensures |r| <= |s|
    ensures forall i :: 0 <= i < |r| ==> !IsAsciiWhitespace(r[i])
  {
    if s == [] then []
    else if IsAsciiWhitespace(s[0]) then RemoveWhitespace(s[1..])
    else [s[0]] + RemoveWhitespace(s[1..])
  }

  /** Drops one or two trailing '='. */
  function RemovePadding(s: string): (r: string)
    ensures |r| <= |s| && r == s[..|r|]
    ensures forall m :: |r| <= m < |s| ==> s[m] == '='
  {
    if |s| >= 2 && s[|s| - 2..] == "==" then s[..|s| - 2]
    else if |s| >= 1 && s[|s| - 1] == '=' then s[..|s| - 1]
    else s
  }

  /** Decodes alphabet characters four at a time; a final group of two or three
      yields one or two bytes, and its left-over low bits are discarded. */
  function DecodeQuanta(s: string): (b: seq<byte>)
    requires |s| % 4 != 1
    requires forall i :: 0 <= i < |s| ==> IsAlphabetChar(s[i])
    ensures |b| == 3 * (|s| / 4) + (if |s| % 4 == 0 then 0 else |s| % 4 - 1)
  {
    if |s| == 0 then []
    else
      assert IsAlphabetChar(s[0]) && IsAlphabetChar(s[1]);
      var v0, v1 := ValueOf(s[0]).value, ValueOf(s[1]).value;
      var first := (v0 * 4 + v1 / 16) as byte;
      if |s| == 2 then [first]
      else
        assert IsAlphabetChar(s[2]);
        var v2 := ValueOf(s[2]).value;
        var second := ((v1 % 16) * 16 + v2 / 4) as byte;
        if |s| == 3 then [first, second]
        else
          assert IsAlphabetChar(s[3]);
          var v3 := ValueOf(s[3]).value;
          [first, second, ((v2 % 4) * 64 + v3) as byte] + DecodeQuanta(s[4..])
  }

  /** The padding is dropped only when the length is a multiple of four. */
  function Unpadded(d: string): (e: string)
    ensures |e| <= |d| && e == d[..|e|]
    ensures forall m :: |e| <= m < |d| ==> d[m] == '='
  {
    if |d| % 4 == 0 then RemovePadding(d) else d
  }

  /** `atob` on its input, before the bytes are read as characters: three
      bytes for every four characters left after white space and padding are
      removed, rounded down. */
  function Decode(s: string): (r: Option<seq<byte>>)
    ensures r.Some? ==> |r.value| == 3 * |Unpadded(RemoveWhitespace(s))| / 4
  {
    var e := Unpadded(RemoveWhitespace(s));
    if |e| % 4 == 1 then None
    else if exists i :: 0 <= i < |e| && !IsAlphabetChar(e[i]) then None
    else
      DecodedLength(|e|);
      Some(DecodeQuanta(e))
  }

  /** The length DecodeQuanta gives is 3n/4, rounded down. */
  lemma DecodedLength(n: nat)
    requires n % 4 != 1
    ensures 3 * (n / 4) + (if n % 4 == 0 then 0 else n % 4 - 1) == 3 * n / 4
  {
    var q, m := n / 4, n % 4;
    assert n == 4 * q + m;
    assert 3 * n == 4 * (3 * q) + 3 * m;
    if m == 0 {
    } else if m == 2 {
      assert 3 * n == 4 * (3 * q + 1) + 2;
    } else {
      assert 3 * n == 4 * (3 * q + 2) + 1;
    }
  }

  /** The bit arithmetic of one quantum: regrouping 3 x 8 bits into 4 x 6 bits
      and back gives the three bytes again. */
  lemma BitsRoundTrip(x0: int, x1: int, x2: int)
    requires 0 <= x0 < 256 && 0 <= x1 < 256 && 0 <= x2 < 256
    ensures var v0, v1, v2, v3 := x0 / 4, (x0 % 4) * 16 + x1 / 16, (x1 % 16) * 4 + x2 / 64, x2 % 64;
            && v0 * 4 + v1 / 16 == x0
            && (v1 % 16) * 16 + v2 / 4 == x1
            && (v2 % 4) * 64 + v3 == x2
  {
  }

  /** A full quantum decodes to the three bytes it encodes. */
  lemma QuantumDecodes(b0: byte, b1: byte, b2: byte)
    ensures var q := EncodeQuantum(b0, b1, b2);
            (forall i :: 0 <= i < |q| ==> IsAlphabetChar(q[i])) && DecodeQuanta(q) == [b0, b1, b2]
  {
    var q := EncodeQuantum(b0, b1, b2);
    var x0, x1, x2 := b0 as int, b1 as int, b2 as int;
    assert ValueOf(q[0]).value == x0 / 4 && ValueOf(q[1]).value == (x0 % 4) * 16 + x1 / 16;
    assert ValueOf(q[2]).value == (x1 % 16) * 4 + x2 / 64 && ValueOf(q[3]).value == x2 % 64;
    assert q[4..] == [];
    BitsRoundTrip(x0, x1, x2);
  }

  /** Decoding splits after a full quantum. */
  lemma DecodeQuantaSplit(q: string, rest: string)
    requires |q| == 4 && |rest| % 4 != 1
    requires forall i :: 0 <= i < |q| ==> IsAlphabetChar(q[i])
    requires forall i :: 0 <= i < |rest| ==> IsAlphabetChar(rest[i])
    ensures var s := q + rest;
            (forall i :: 0 <= i < |s| ==> IsAlphabetChar(s[i])) &&
            DecodeQuanta(s) == DecodeQuanta(q) + DecodeQuanta(rest)
  {
    var s := q + rest;
    forall i | 0 <= i < |s| ensures IsAlphabetChar(s[i]) {
      if i < 4 { assert s[i] == q[i]; } else { assert s[i] == rest[i - 4]; }
    }
    assert s[..4] == q && s[4..] == rest && q[4..] == [];
  }

  lemma {:induction false} DecodeEncodeUnpadded(b: seq<byte>)
    ensures DecodeQuanta(EncodeUnpadded(b)) == b
    decreases |b|
  {
    if |b| >= 3 {
      var rest := EncodeUnpadded(b[3..]);
      assert EncodeUnpadded(b) == EncodeQuantum(b[0], b[1], b[2]) + rest;
      DecodeEncodeUnpadded(b[3..]);
      QuantumDecodes(b[0], b[1], b[2]);
      DecodeQuantaSplit(EncodeQuantum(b[0], b[1], b[2]), rest);
      assert b == [b[0], b[1], b[2]] + b[3..];
    } else {
      DecodesFinalGroup(b);
    }
  }

  /** The final group of two or three characters decodes to its one or two bytes. */
  lemma DecodesFinalGroup(b: seq<byte>)
    requires |b| < 3
    ensures DecodeQuanta(EncodeUnpadded(b)) == b
  {
    if |b| == 2 {
      DecodesTwoBytes(b[0], b[1]);
      assert b == [b[0], b[1]];
    } else if |b| == 1 {
      DecodesOneByte(b[0]);
      assert b == [b[0]];
    }
  }

  lemma DecodesTwoBytes(b0: byte, b1: byte)
    ensures DecodeQuanta(EncodeUnpadded([b0, b1])) == [b0, b1]
  {
    BitsRoundTrip(b0 as int, b1 as int, 0);
  }

  lemma DecodesOneByte(b0: byte)
    ensures DecodeQuanta(EncodeUnpadded([b0])) == [b0]
  {
    BitsRoundTrip(b0 as int, 0, 0);
  }

  lemma {:induction false} RemoveWhitespaceNoop(s: string)
    requires forall i :: 0 <= i < |s| ==> !IsAsciiWhitespace(s[i])
    ensures RemoveWhitespace(s) == s
    decreases |s|
  {
    if s != [] {
      RemoveWhitespaceNoop(s[1..]);
      assert s == [s[0]] + s[1..];
    }
  }

  lemma EncodeHasNoWhitespace(b: seq<byte>)
    ensures forall i :: 0 <= i < |Encode(b)| ==> !IsAsciiWhitespace(Encode(b)[i])
  {
    var u, s := EncodeUnpadded(b), Encode(b);
    forall i | 0 <= i < |s| ensures !IsAsciiWhitespace(s[i]) {
      if i < |u| {
        assert s[i] == u[i] && IsAlphabetChar(u[i]);
      } else {
        assert s[i] == Padding(|b|)[i - |u|];
      }
    }
  }

  lemma RemovePaddingOfEncode(b: seq<byte>)
    ensures RemovePadding(Encode(b)) == EncodeUnpadded(b)
  {
    var u := EncodeUnpadded(b);
    if u != [] {
      assert IsAlphabetChar(u[|u| - 1]);
    }
    assert Encode(b) == u + Padding(|b|);
    RemovePaddingOfPadded(u, |b|);
  }

  /** Removing the padding that Padding(n) appends gives back the text. */
  lemma RemovePaddingOfPadded(u: string, n: nat)
    requires u == [] || u[|u| - 1] != '='
    ensures RemovePadding(u + Padding(n)) == u
  {
    if n % 3 == 0 {
      RemovePaddingNone(u);
    } else if n % 3 == 2 {
      RemovePaddingOne(u);
    } else {
      RemovePaddingTwo(u);
    }
  }

  lemma RemovePaddingNone(u: string)
    requires u == [] || u[|u| - 1] != '='
    ensures RemovePadding(u + "") == u
  {
    assert u + "" == u;
    if |u| >= 2 { assert u[|u| - 2..][1] == u[|u| - 1]; }
  }

  lemma RemovePaddingOne(u: string)
    requires u == [] || u[|u| - 1] != '='
    ensures RemovePadding(u + "=") == u
  {
    var s := u + "=";
    if |u| >= 1 { assert s[|s| - 2..][0] == u[|u| - 1]; }
    assert s[..|s| - 1] == u;
  }

  lemma RemovePaddingTwo(u: string)
    ensures RemovePadding(u + "==") == u
  {
    var s := u + "==";
    assert s[|s| - 2..] == "==";
    assert s[..|s| - 2] == u;
  }

  /** What `btoa` produces, `atob` reads back. */
  lemma RoundTrip(b: seq<byte>)
    ensures Decode(Encode(b)) == Some(b)
  {
    var u := EncodeUnpadded(b);
    EncodeHasNoWhitespace(b);
    RemoveWhitespaceNoop(Encode(b));
    RemovePaddingOfEncode(b);
    DecodeEncodeUnpadded(b);
  }

  lemma {:induction false} RemoveWhitespaceKeeps(s: string, c: char)
    requires c in s && !IsAsciiWhitespace(c)
    ensures c in RemoveWhitespace(s)
    decreases |s|
  {
    if s[0] != c {
      RemoveWhitespaceKeeps(s[1..], c);
    }
  }

  /** A character that is neither whitespace, padding nor in the alphabet makes `atob` fail. */
  lemma RejectsForeignCharacter(s: string, c: char)
    requires c in s && !IsAlphabetChar(c) && !IsAsciiWhitespace(c) && c != '='
    ensures Decode(s) == None
  {
    var d := RemoveWhitespace(s);
    RemoveWhitespaceKeeps(s, c);
    var e := Unpadded(d);
    var k :| 0 <= k < |d| && d[k] == c;
    assert k < |e| && e[k] == c;
    assert !IsAlphabetChar(e[k]);
  }
}

=== FILE: codec.dfy ===
/**
 * The value codec of the travel planner ("FHE" tokens). It is a reversible
 * text transform, not encryption: a number is written in decimal, the decimal
 * text is base64-encoded as `btoa` does, and "FHE-" is put in front. Reading a
 * token strips the prefix, decodes as `atob` does and parses the text as
 * `parseFloat` does; a token without the prefix is parsed directly.
 * Numbers are modelled as integers; see README for what that leaves out.
 */
module Codec {
  import opened Wrappers
  import Base64

  const TokenPrefix: string := "FHE-"

  predicate HasTokenPrefix(s: string) {
    |s| >= |TokenPrefix| && s[..|TokenPrefix|] == TokenPrefix
  }

  predicate IsDigit(c: char) {
    '0' <= c <= '9'
  }

  function DigitChar(d: int): (c: char)
    requires 0 <= d < 10
    ensures IsDigit(c)
  {
    ('0' as int + d) as char
  }

  /** `toString()` of a non-negative integer: its decimal digits, with no leading zero. */
  function Decimal(n: nat): (s: string)
    ensures |s| > 0 && forall i :: 0 <= i < |s| ==> IsDigit(s[i])
    ensures s[0] == '0' ==> n == 0
  {
    if n < 10 then [DigitChar(n)] else Decimal(n / 10) + [DigitChar(n % 10)]
  }

  /** `toString()` of an integer: a minus sign before the digits of a negative one. */
  function NumberText(n: int): (s: string)
    ensures |s| > 0 && (IsDigit(s[0]) || s[0] == '-')
    ensures forall i :: 0 <= i < |s| ==> s[i] as int < 256
  {
    var d := Decimal(if n < 0 then -n else n);
    assert forall i :: 0 <= i < |d| ==> IsDigit(d[i]);
    if n < 0 then "-" + d else d
  }

  /** The value of a string of decimal digits, most significant first. */
  function DigitsValue(s: string): nat
    requires forall i :: 0 <= i < |s| ==> IsDigit(s[i])
  {
    if s == [] then 0
    else
      assert IsDigit(s[|s| - 1]);
      DigitsValue(s[..|s| - 1]) * 10 + (s[|s| - 1] as int - '0' as int)
  }

  lemma {:induction false} DecimalValue(n: nat)
    ensures DigitsValue(Decimal(n)) == n
  {
    if n >= 10 {
      var s := Decimal(n);
      assert s[..|s| - 1] == Decimal(n / 10);
      DecimalValue(n / 10);
    }
  }

  /** The characters `parseFloat` skips before the number: the white space and
      line terminators of ECMAScript (StrWhiteSpaceChar). */
  predicate IsJsWhitespace(c: char) {
    || c == '\t' || c == '\n' || c == '\U{B}' || c == '\U{C}' || c == '\r' || c == ' '
    || c == '\U{A0}' || c == '\U{1680}' || ('\U{2000}' <= c <= '\U{200A}')
    || c == '\U{2028}' || c == '\U{2029}' || c == '\U{202F}' || c == '\U{205F}'
    || c == '\U{3000}' || c == '\U{FEFF}'
  }

  function TrimStart(s: string): (t: string)
    ensures |t| <= |s| && t == s[|s| - |t|..]
    ensures t == [] || !IsJsWhitespace(t[0])
  {
    if s != [] && IsJsWhitespace(s[0]) then TrimStart(s[1..]) else s
  }

  /** The longest prefix of decimal digits. */
  function DigitRun(s: string): (d: string)
    ensures |d| <= |s| && d == s[..|d|]
    ensures forall i :: 0 <= i < |d| ==> IsDigit(s[i])
    ensures |d| == |s| || !IsDigit(s[|d|])
  {
    if s != [] && IsDigit(s[0]) then [s[0]] + DigitRun(s[1..]) else []
  }

  /** `parseFloat` restricted to integers: optional leading white space, an
      optional sign, then the longest run of digits; the rest of the text is
      ignored. None is NaN: no digit where the number should start. */
  function ParseNumber(s: string): (r: Option<int>)
    ensures r.Some? ==> exists k :: 0 <= k < |s| && IsDigit(s[k])
  {
    var t := TrimStart(s);
    var signed := t != [] && (t[0] == '+' || t[0] == '-');
    var d := DigitRun(if signed then t[1..] else t);
    if d == [] then None
    else
      var k := |s| - |t| + (if signed then 1 else 0);
      assert IsDigit(s[k]);
      var v: int := DigitsValue(d);
      Some(if signed && t[0] == '-' then -v else v)
  }

  /** The bytes of a string whose characters are all at most U+00FF, as `btoa`
      reads it; None where `btoa` throws. */
  function Latin1Bytes(s: string): (r: Option<seq<Base64.byte>>)
    ensures r.Some? <==> forall i :: 0 <= i < |s| ==> s[i] as int < 256
    ensures r.Some? ==> |r.value| == |s| && forall i :: 0 <= i < |s| ==> r.value[i] as int == s[i] as int
  {
    if forall i :: 0 <= i < |s| ==> s[i] as int < 256
    then Some(seq(|s|, i requires 0 <= i < |s| && s[i] as int < 256 => s[i] as int as Base64.byte))
    else None
  }

  /** The string `atob` returns: one character per byte. */
  function Latin1Text(b: seq<Base64.byte>): (s: string)
    ensures |s| == |b| && forall i :: 0 <= i < |b| ==> s[i] as int == b[i] as int
  {
    seq(|b|, i requires 0 <= i < |b| => b[i] as int as char)
  }

  /** `btoa`; None where it throws, on a character above U+00FF. */
  function Btoa(s: string): (r: Option<string>)
    ensures r.Some? <==> forall i :: 0 <= i < |s| ==> s[i] as int < 256
    ensures r.Some? ==> |r.value| % 4 == 0
  {
    match Latin1Bytes(s)
    case None => None
    case Some(b) => Some(Base64.Encode(b))
  }

  /** `atob`; None where it throws. */
  function Atob(s: string): (r: Option<string>)
    ensures r.Some? ==> Base64.Decode(s).Some? && |r.value| == |Base64.Decode(s).value|
    ensures r.Some? ==> forall i :: 0 <= i < |r.value| ==> r.value[i] as int < 256
  {
    match Base64.Decode(s)
    case None => None
    case Some(b) => Some(Latin1Text(b))
  }

  /** What decrypting a token gives: a number, NaN, or an exception from `atob`. */
  datatype Decoded = Number(value: int) | NaN | Throws

  function FromParse(r: Option<int>): Decoded {
    if r.Some? then Number(r.value) else NaN
  }

  /** FHEEncryptNumber on an integer. */
  function EncryptNumber(n: int): (token: string)
    ensures HasTokenPrefix(token)
  {
    TokenPrefix + Btoa(NumberText(n)).value
  }

  /** FHEDecryptNumber. */
  function DecryptNumber(token: string): (d: Decoded)
    ensures d == Throws ==> HasTokenPrefix(token)
  {
    if HasTokenPrefix(token) then
      match Atob(token[|TokenPrefix|..])
      case None => Throws
      case Some(text) => FromParse(ParseNumber(text))
    else FromParse(ParseNumber(token))
  }

  lemma ParseNumberText(n: int)
    ensures ParseNumber(NumberText(n)) == Some(n)
  {
    ParseIgnoresSuffix(n, []);
    assert NumberText(n) + [] == NumberText(n);
  }

  lemma {:induction false} Latin1RoundTrip(s: string)
    requires forall i :: 0 <= i < |s| ==> s[i] as int < 256
    ensures Latin1Text(Latin1Bytes(s).value) == s
  {
  }

  /** `atob` undoes `btoa` on every string that `btoa` accepts. */
  lemma AtobBtoa(s: string)
    requires forall i :: 0 <= i < |s| ==> s[i] as int < 256
    ensures Atob(Btoa(s).value) == Some(s)
  {
    var b := Latin1Bytes(s).value;
    Base64.RoundTrip(b);
    Latin1RoundTrip(s);
  }

  /** Every integer the codec writes, it reads back. */
  lemma DecryptEncrypt(n: int)
    ensures DecryptNumber(EncryptNumber(n)) == Number(n)
  {
    var text := NumberText(n);
    var token := EncryptNumber(n);
    var b := Latin1Bytes(text).value;
    assert token[|TokenPrefix|..] == Base64.Encode(b);
    Base64.RoundTrip(b);
    Latin1RoundTrip(text);
    ParseNumberText(n);
  }

  /** The legacy path: a token without the prefix, such as plain decimal
      text, is parsed as a number. */
  lemma DecryptPlainDecimal(n: int)
    ensures DecryptNumber(NumberText(n)) == Number(n)
  {
    var s := NumberText(n);
    assert !HasTokenPrefix(s) by { assert s[0] != TokenPrefix[0]; }
    ParseNumberText(n);
  }

  /** `parseFloat` stops at the first character that cannot continue the
      number: not a digit, a decimal point or an exponent mark. */
  lemma ParseIgnoresSuffix(n: int, rest: string)
    requires rest == [] || !(IsDigit(rest[0]) || rest[0] == '.' || rest[0] == 'e' || rest[0] == 'E')
    ensures ParseNumber(NumberText(n) + rest) == Some(n)
  {
    var noDigit := rest == [] || !IsDigit(rest[0]);
    assert noDigit;
    if n < 0 {
      var m: nat := -n;
      assert NumberText(n) + rest == "-" + (Decimal(m) + rest) by {
        assert NumberText(n) == "-" + Decimal(m);
      }
      ParseNegative(m, rest);
    } else {
      assert NumberText(n) == Decimal(n);
      ParseUnsigned(n, rest);
    }
  }

  lemma ParseUnsigned(m: nat, rest: string)
    requires rest == [] || !IsDigit(rest[0])
    ensures ParseNumber(Decimal(m) + rest) == Some(m)
  {
    var d := Decimal(m);
    var s := d + rest;
    assert s[0] == d[0] && IsDigit(s[0]);
    assert TrimStart(s) == s by { assert !IsJsWhitespace(s[0]); }
    assert !(s[0] == '+' || s[0] == '-');
    assert DigitRun(s) == d by { DigitRunOfDigits(d, rest); }
    assert DigitsValue(d) == m by { DecimalValue(m); }
  }

  lemma ParseNegative(m: nat, rest: string)
    requires rest == [] || !IsDigit(rest[0])
    ensures ParseNumber("-" + (Decimal(m) + rest)) == Some(-(m as int))
  {
    var d := Decimal(m);
    var s := "-" + (d + rest);
    assert s[0] == '-' && s[1..] == d + rest;
    assert TrimStart(s) == s by { assert !IsJsWhitespace(s[0]); }
    assert DigitRun(s[1..]) == d by { DigitRunOfDigits(d, rest); }
    assert DigitsValue(d) == m by { DecimalValue(m); }
  }

  lemma {:induction false} DigitRunOfDigits(d: string, rest: string)
    requires forall i :: 0 <= i < |d| ==> IsDigit(d[i])
    requires rest == [] || !IsDigit(rest[0])
    ensures DigitRun(d + rest) == d
    decreases |d|
  {
    if d != [] {
      assert (d + rest)[1..] == d[1..] + rest;
      DigitRunOfDigits(d[1..], rest);
    }
  }

  /** Unprefixed text whose first character cannot start a number (no digit,
      white space, sign, decimal point or the I of "Infinity") is NaN. */
  lemma NonNumericIsNaN(s: string)
    requires s != [] && !IsDigit(s[0]) && !IsJsWhitespace(s[0]) && s[0] != '+' && s[0] != '-'
    requires s[0] != '.' && s[0] != 'I'
    requires !HasTokenPrefix(s)
    ensures DecryptNumber(s) == NaN
  {
  }

  /** A prefixed token whose body is not base64 makes `atob`, and so the decoder, throw. */
  lemma DecryptInvalidBase64()
    ensures DecryptNumber("FHE-!!") == Throws
  {
    var body := "FHE-!!"[|TokenPrefix|..];
    assert body == "!!";
    assert '!' in body;
    Base64.RejectsForeignCharacter(body, '!');
  }

  /** The token for 100: base64 of the text "100". */
  lemma EncryptExample()
    ensures EncryptNumber(100) == "FHE-MTAw"
  {
    assert Decimal(100) == "100" by {
      assert Decimal(1) == "1" && DigitChar(0) == '0';
      assert Decimal(10) == "10";
    }
    var b: seq<Base64.byte> := [49, 48, 48];
    assert Latin1Bytes("100").value == b;
    EncodeDigits100();
    assert Btoa("100") == Some("MTAw");
  }

  /** The bytes of "100" in base64. */
  lemma EncodeDigits100()
    ensures Base64.Encode([49, 48, 48]) == "MTAw"
  {
    var b: seq<Base64.byte> := [49, 48, 48];
    assert b[3..] == [];
    assert Base64.CharOf(12) == 'M' && Base64.CharOf(19) == 'T';
    assert Base64.CharOf(0) == 'A' && Base64.CharOf(48) == 'w';
    var q := Base64.EncodeQuantum(49, 48, 48);
    assert q == [Base64.CharOf(12), Base64.CharOf(19), Base64.CharOf(0), Base64.CharOf(48)];
    assert Base64.EncodeUnpadded(b) == q + [];
    assert Base64.Padding(3) == "";
  }
}

=== FILE: records.dfy ===
/**
 * The data of the travel planner: the stored payloads, the in-memory
 * TravelRecord, and the two kinds of key under which the store keeps them.
 */
module Records {
  import opened Wrappers

  datatype Status = Planning | Booked | Cancelled

  /** The JSON object kept under a record key. Its `status` is None when the
      field is missing or empty. */
  datatype StoredRecord = StoredRecord(
    budget: string,
    days: string,
    timestamp: int,
    owner: string,
    destination: string,
    status: Option<Status>)

  /** The bytes `getData` returns for a key, as UTF-8 and JSON decoding see
      them: nothing, text that does not parse, a record object, or the list of
      record ids kept under the index key. */
  datatype Payload = Empty | Malformed | Rec(fields: StoredRecord) | Keys(ids: seq<string>)

  /** A record as the list view holds it. */
  datatype TravelRecord = TravelRecord(
    id: string,
    encryptedBudget: string,
    encryptedDays: string,
    timestamp: int,
    owner: string,
    destination: string,
    status: Status)

  /** The contract's key/value storage. A key never written reads as empty. */
  type Store = map<string, Payload>

  const IndexKey: string := "travel_keys"

  function RecordKey(id: string): (key: string)
    ensures key == IndexKey <==> id == "keys"
    ensures |key| > 7 || id == []
  {
    var key := "travel_" + id;
    assert key[7..] == id && IndexKey[7..] == "keys" && key[..7] == IndexKey[..7];
    key
  }

  lemma RecordKeyInjective(a: string, b: string)
    requires RecordKey(a) == RecordKey(b)
    ensures a == b
  {
    assert a == RecordKey(a)[7..];
  }

  function Get(store: Store, key: string): Payload {
    if key in store then store[key] else Empty
  }

  /** The id list under the index key; an empty or unparsable index is an empty list. */
  function IndexIds(store: Store): (ids: seq<string>)
    ensures Get(store, IndexKey).Keys? ==> ids == Get(store, IndexKey).ids
    ensures !Get(store, IndexKey).Keys? ==> ids == []
  {
    match Get(store, IndexKey)
    case Keys(ids) => ids
    case _ => []
  }

  /** The list entry built from a stored object; a missing status reads as planning. */
  function FromStored(id: string, r: StoredRecord): (t: TravelRecord)
    ensures t.id == id && t.timestamp == r.timestamp && t.owner == r.owner
    ensures t.destination == r.destination && t.encryptedBudget == r.budget && t.encryptedDays == r.days
    ensures r.status.Some? ==> t.status == r.status.value
    ensures r.status.None? ==> t.status == Planning
  {
    TravelRecord(id, r.budget, r.days, r.timestamp, r.owner, r.destination,
                 if r.status.Some? then r.status.value else Planning)
  }
}

=== FILE: sorting.dfy ===
/**
 * `list.sort((a, b) => b.timestamp - a.timestamp)`: a stable sort, newest
 * first. NewestFirst is the specification (stable insertion); SortNewestFirst
 * performs it in place on an array.
 */
module Sorting {
  import opened Records

  /** Puts x behind every element at least as recent as x. */
  function InsertByTime(t: seq<TravelRecord>, x: TravelRecord): (r: seq<TravelRecord>)
    ensures |r| == |t| + 1
  {
    if t == [] || t[|t| - 1].timestamp >= x.timestamp then t + [x]
    else InsertByTime(t[..|t| - 1], x) + [t[|t| - 1]]
  }

  function NewestFirst(s: seq<TravelRecord>): (r: seq<TravelRecord>)
    ensures |r| == |s|
  {
    if s == [] then [] else InsertByTime(NewestFirst(s[..|s| - 1]), s[|s| - 1])
  }

  ghost predicate IsNewestFirst(s: seq<TravelRecord>) {
    forall i, j :: 0 <= i < j < |s| ==> s[i].timestamp >= s[j].timestamp
  }

  /** The records with timestamp k, in the order of s. */
  function WithTimestamp(s: seq<TravelRecord>, k: int): (r: seq<TravelRecord>)
    ensures |r| <= |s|
  {
    if s == [] then []
    else WithTimestamp(s[..|s| - 1], k) + (if s[|s| - 1].timestamp == k then [s[|s| - 1]] else [])
  }

  lemma {:induction false} InsertByTimePermutes(t: seq<TravelRecord>, x: TravelRecord)
    ensures multiset(InsertByTime(t, x)) == multiset(t) + multiset{x}
  {
    if !(t == [] || t[|t| - 1].timestamp >= x.timestamp) {
      var init := t[..|t| - 1];
      InsertByTimePermutes(init, x);
      assert t == init + [t[|t| - 1]];
    }
  }

  /** Every record of InsertByTime(t, x) is at least as recent as v when x and
      every record of t are. */
  lemma {:induction false} InsertByTimeBound(t: seq<TravelRecord>, x: TravelRecord, v: int)
    requires x.timestamp >= v
    requires forall i :: 0 <= i < |t| ==> t[i].timestamp >= v
    ensures forall i :: 0 <= i < |t| + 1 ==> InsertByTime(t, x)[i].timestamp >= v
  {
    if !(t == [] || t[|t| - 1].timestamp >= x.timestamp) {
      var init := t[..|t| - 1];
      InsertByTimeBound(init, x, v);
      assert InsertByTime(t, x) == InsertByTime(init, x) + [t[|t| - 1]];
    }
  }

  lemma {:induction false} InsertByTimeSorted(t: seq<TravelRecord>, x: TravelRecord)
    requires IsNewestFirst(t)
    ensures IsNewestFirst(InsertByTime(t, x))
  {
    if !(t == [] || t[|t| - 1].timestamp >= x.timestamp) {
      var init, last := t[..|t| - 1], t[|t| - 1];
      InsertByTimeSorted(init, x);
      InsertByTimeBound(init, x, last.timestamp);
      var r := InsertByTime(init, x);
      assert InsertByTime(t, x) == r + [last];
      assert forall i :: 0 <= i < |r| ==> r[i].timestamp >= last.timestamp;
    }
  }

  /** WithTimestamp after appending one record. */
  lemma WithTimestampSnoc(s: seq<TravelRecord>, y: TravelRecord, k: int)
    ensures WithTimestamp(s + [y], k) == WithTimestamp(s, k) + (if y.timestamp == k then [y] else [])
  {
    assert (s + [y])[..|s|] == s;
  }

  lemma {:induction false} InsertByTimeStable(t: seq<TravelRecord>, x: TravelRecord, k: int)
    ensures WithTimestamp(InsertByTime(t, x), k) == WithTimestamp(t + [x], k)
  {
    if !(t == [] || t[|t| - 1].timestamp >= x.timestamp) {
      var init, last := t[..|t| - 1], t[|t| - 1];
      var r := InsertByTime(init, x);
      assert InsertByTime(t, x) == r + [last];
      assert t == init + [last];
      InsertByTimeStable(init, x, k);
      WithTimestampSnoc(r, last, k);
      WithTimestampSnoc(init, x, k);
      WithTimestampSnoc(init, last, k);
      WithTimestampSnoc(t, x, k);
    }
  }

  /** The order is newest first. */
  lemma {:induction false} NewestFirstSorted(s: seq<TravelRecord>)
    ensures IsNewestFirst(NewestFirst(s))
  {
    if s != [] {
      NewestFirstSorted(s[..|s| - 1]);
      InsertByTimeSorted(NewestFirst(s[..|s| - 1]), s[|s| - 1]);
    }
  }

  /** The result holds the same records as the input. */
  lemma {:induction false} NewestFirstPermutes(s: seq<TravelRecord>)
    ensures multiset(NewestFirst(s)) == multiset(s)
  {
    if s != [] {
      NewestFirstPermutes(s[..|s| - 1]);
      InsertByTimePermutes(NewestFirst(s[..|s| - 1]), s[|s| - 1]);
      assert s == s[..|s| - 1] + [s[|s| - 1]];
    }
  }

  /** Stability: records with equal timestamps keep their retrieval order. */
  lemma {:induction false} NewestFirstStable(s: seq<TravelRecord>, k: int)
    ensures WithTimestamp(NewestFirst(s), k) == WithTimestamp(s, k)
  {
    if s != [] {
      var init, last := s[..|s| - 1], s[|s| - 1];
      var r := NewestFirst(init);
      assert NewestFirst(s) == InsertByTime(r, last);
      InsertByTimeStable(r, last, k);
      WithTimestampSnoc(r, last, k);
      NewestFirstStable(init, k);
      assert WithTimestamp(s, k) == WithTimestamp(init, k) + (if last.timestamp == k then [last] else []);
    }
  }

  /** Replaces the status of every record with the given id. */
  function Restatus(s: seq<TravelRecord>, id: string, st: Status): (r: seq<TravelRecord>)
    ensures |r| == |s|
    ensures forall i :: 0 <= i < |s| ==> r[i] == (if s[i].id == id then s[i].(status := st) else s[i])
  {
    seq(|s|, i requires 0 <= i < |s| => if s[i].id == id then s[i].(status := st) else s[i])
  }

  lemma RestatusAppend(a: seq<TravelRecord>, b: seq<TravelRecord>, id: string, st: Status)
    ensures Restatus(a + b, id, st) == Restatus(a, id, st) + Restatus(b, id, st)
  {
  }

  lemma RestatusLast(t: seq<TravelRecord>, id: string, st: Status)
    requires t != []
    ensures Restatus(t, id, st)[..|t| - 1] == Restatus(t[..|t| - 1], id, st)
    ensures Restatus(t, id, st)[|t| - 1] == Restatus([t[|t| - 1]], id, st)[0]
  {
  }

  lemma {:induction false} InsertByTimeRestatus(t: seq<TravelRecord>, x: TravelRecord, id: string, st: Status)
    ensures InsertByTime(Restatus(t, id, st), Restatus([x], id, st)[0]) == Restatus(InsertByTime(t, x), id, st)
  {
    var x' := Restatus([x], id, st)[0];
    var t' := Restatus(t, id, st);
    if !(t == [] || t[|t| - 1].timestamp >= x.timestamp) {
      var init, last := t[..|t| - 1], t[|t| - 1];
      var r := InsertByTime(init, x);
      RestatusLast(t, id, st);
      assert InsertByTime(t', x') == InsertByTime(Restatus(init, id, st), x') + [t'[|t| - 1]];
      InsertByTimeRestatus(init, x, id, st);
      assert InsertByTime(t, x) == r + [last];
      RestatusAppend(r, [last], id, st);
    } else {
      RestatusAppend(t, [x], id, st);
      assert t == [] || t'[|t| - 1].timestamp >= x'.timestamp;
    }
  }

  /** Changing statuses does not move any record: sorting commutes with it. */
  lemma {:induction false} NewestFirstRestatus(s: seq<TravelRecord>, id: string, st: Status)
    ensures NewestFirst(Restatus(s, id, st)) == Restatus(NewestFirst(s), id, st)
  {
    if s != [] {
      var init := s[..|s| - 1];
      NewestFirstRestatus(init, id, st);
      RestatusLast(s, id, st);
      InsertByTimeRestatus(NewestFirst(init), s[|s| - 1], id, st);
    }
  }

  /** x lands right after the last element at least as recent as x, when
      every element from there on is strictly older. */
  lemma {:induction false} InsertByTimeAt(t: seq<TravelRecord>, j: nat, x: TravelRecord)
    requires j <= |t|
    requires j == 0 || t[j - 1].timestamp >= x.timestamp
    requires forall m :: j <= m < |t| ==> t[m].timestamp < x.timestamp
    ensures InsertByTime(t, x) == t[..j] + [x] + t[j..]
    decreases |t|
  {
    if j < |t| {
      var init := t[..|t| - 1];
      InsertByTimeAt(init, j, x);
      assert init[..j] == t[..j];
      assert t[j..] == init[j..] + [t[|t| - 1]];
    }
  }

  /** One step of insertion sort: a[i] moves left past every older element of
      a[..i]. */
  method InsertStep(a: array<TravelRecord>, i: nat)
    requires i < a.Length
    modifies a
    ensures a[..i + 1] == InsertByTime(old(a[..i]), old(a[i]))
    ensures a[i + 1..] == old(a[i + 1..])
  {
    ghost var t := a[..i];
    var x := a[i];
    var j := ShiftOlder(a, i, x);
    a[j] := x;
    ghost var r := t[..j] + [x] + t[j..];
    forall m | 0 <= m <= i ensures a[m] == r[m] {
      if m > j { assert r[m] == t[m - 1]; }
    }
    assert a[..i + 1] == r;
    InsertByTimeAt(t, j, x);
  }

  /** Moves the run of records older than x that ends at a[i - 1] one place
      right, and returns the index where it started. */
  method ShiftOlder(a: array<TravelRecord>, i: nat, x: TravelRecord) returns (j: nat)
    requires i < a.Length
    modifies a
    ensures j <= i
    ensures forall m :: 0 <= m < j ==> a[m] == old(a[m])
    ensures forall m :: j < m <= i ==> a[m] == old(a[m - 1])
    ensures forall m :: i < m < a.Length ==> a[m] == old(a[m])
    ensures forall m :: j <= m < i ==> old(a[m]).timestamp < x.timestamp
    ensures j == 0 || a[j - 1].timestamp >= x.timestamp
  {
    j := i;
    while j > 0 && a[j - 1].timestamp < x.timestamp
      invariant 0 <= j <= i
      invariant forall m :: 0 <= m < j ==> a[m] == old(a[m])
      invariant forall m :: j < m <= i ==> a[m] == old(a[m - 1])
      invariant forall m :: i < m < a.Length ==> a[m] == old(a[m])
      invariant forall m :: j <= m < i ==> old(a[m]).timestamp < x.timestamp
    {
      a[j] := a[j - 1];
      j := j - 1;
    }
  }

  method SortNewestFirst(a: array<TravelRecord>)
    modifies a
    ensures a[..] == NewestFirst(old(a[..]))
  {
    ghost var s := a[..];
    var i := 0;
    while i < a.Length
      invariant 0 <= i <= a.Length
      invariant a[..i] == NewestFirst(s[..i])
      invariant a[i..] == s[i..]
    {
      InsertStep(a, i);
      assert s[..i + 1][..i] == s[..i];
      i := i + 1;
    }
    assert s[..a.Length] == s;
  }

  /** The example of records stamped 5, 10 and 1, which load as 10, 5, 1. */
  lemma SortExample(a: TravelRecord, b: TravelRecord, c: TravelRecord)
    requires a.timestamp == 5 && b.timestamp == 10 && c.timestamp == 1
    ensures NewestFirst([a, b, c]) == [b, a, c]
  {
    assert [a, b, c][..2] == [a, b];
    assert [a, b][..1] == [a];
    assert NewestFirst([a]) == [a];
    assert InsertByTime([a], b) == [b, a] by { assert [a][..0] == []; }
    assert NewestFirst([a, b]) == [b, a];
  }
}

=== FILE: sync.dfy ===
/**
 * The record store of the travel planner: reload (loadRecords), create
 * (submitRecord) and the status writes (bookTrip, cancelTrip) against the
 * contract's key/value storage, here a map held by the TravelApp object
 * together with the list the view shows.
 */
module Sync {
  import opened Wrappers
  import opened Records
  import Codec
  import Sorting
  import View

  datatype Failure =
    | WalletNotConnected   // "Please connect wallet first": nothing is attempted
    | NoSignerContract     // "Failed to get contract with signer"
    | RecordNotFound       // "Record not found": the record key reads as empty
    | IndexNotAList        // the index parses to an object, and `keys.push` throws
    | UnreadableRecord     // JSON.parse throws on the stored bytes

  datatype Outcome = Done | Failed(reason: Failure)

  /** The list entry an id contributes to a reload: one record, or none when
      its payload is empty or unreadable. */
  function Entry(store: Store, id: string): (e: seq<TravelRecord>)
    ensures |e| <= 1 && (e != [] <==> Get(store, RecordKey(id)).Rec?)
    ensures forall t :: t in e ==> t.id == id
  {
    match Get(store, RecordKey(id))
    case Rec(fields) => [FromStored(id, fields)]
    case _ => []
  }

  /** The records reachable through ids, in id order. */
  function Collect(store: Store, ids: seq<string>): (r: seq<TravelRecord>)
    ensures |r| <= |ids|
  {
    if ids == [] then [] else Collect(store, ids[..|ids| - 1]) + Entry(store, ids[|ids| - 1])
  }

  /** The ids whose record key holds a readable record, in order. */
  function LoadableIds(store: Store, ids: seq<string>): (r: seq<string>)
    ensures forall id :: id in r <==> id in ids && Get(store, RecordKey(id)).Rec?
  {
    if ids == [] then []
    else
      var last := ids[|ids| - 1];
      assert ids == ids[..|ids| - 1] + [last];
      LoadableIds(store, ids[..|ids| - 1]) + (if Get(store, RecordKey(last)).Rec? then [last] else [])
  }

  /** What loadRecords puts in the list, given the storage. */
  function Reloaded(store: Store): (r: seq<TravelRecord>)
    ensures |r| <= |IndexIds(store)|
  {
    Sorting.NewestFirst(Collect(store, IndexIds(store)))
  }

  /** A reload loads exactly the loadable ids, in index order, each with the
      stored fields and a missing status read as planning. */
  lemma {:induction false} CollectLoadsExactly(store: Store, ids: seq<string>)
    ensures var c, l := Collect(store, ids), LoadableIds(store, ids);
            && |c| == |l|
            && forall i :: 0 <= i < |c| ==>
                 (Get(store, RecordKey(l[i])).Rec? && c[i] == FromStored(l[i], Get(store, RecordKey(l[i])).fields))
  {
    if ids != [] {
      CollectLoadsExactly(store, ids[..|ids| - 1]);
      var l := LoadableIds(store, ids);
      forall i | 0 <= i < |l| ensures Get(store, RecordKey(l[i])).Rec? {
        assert l[i] in l;
      }
    }
  }

  /** The example of an index ["a", "b", "c"] whose "b" holds bytes that do not
      parse: "a" and "c" load, "b" is skipped. */
  lemma SkipsMalformedRecord(store: Store, fa: StoredRecord, fc: StoredRecord)
    requires IndexIds(store) == ["a", "b", "c"]
    requires Get(store, RecordKey("a")) == Rec(fa)
    requires Get(store, RecordKey("b")) == Malformed
    requires Get(store, RecordKey("c")) == Rec(fc)
    ensures Collect(store, IndexIds(store)) == [FromStored("a", fa), FromStored("c", fc)]
  {
    var ids := ["a", "b", "c"];
    assert ids[..2] == ["a", "b"] && ids[..2][..1] == ["a"] && ids[..2][..1][..0] == [];
    assert Collect(store, ["a"]) == [FromStored("a", fa)];
    assert Collect(store, ["a", "b"]) == [FromStored("a", fa)];
  }

  /** The loaded list is newest first, holds exactly the collected records, and
      records with equal timestamps keep their index order. */
  lemma ReloadedIsStableSort(store: Store)
    ensures var c, r := Collect(store, IndexIds(store)), Reloaded(store);
            && Sorting.IsNewestFirst(r)
            && multiset(r) == multiset(c)
            && forall k :: Sorting.WithTimestamp(r, k) == Sorting.WithTimestamp(c, k)
  {
    var c := Collect(store, IndexIds(store));
    Sorting.NewestFirstSorted(c);
    Sorting.NewestFirstPermutes(c);
    forall k ensures Sorting.WithTimestamp(Reloaded(store), k) == Sorting.WithTimestamp(c, k) {
      Sorting.NewestFirstStable(c, k);
    }
  }

  /** An index key that holds nothing, or text that does not parse, reloads
      as the empty list (and is no object, so the reload goes ahead). */
  lemma UnreadableIndexReloadsEmpty(store: Store)
    requires Get(store, IndexKey) == Empty || Get(store, IndexKey) == Malformed
    ensures !IndexIsObject(store) && Reloaded(store) == []
  {
  }

  /** The object submitRecord stores: encoded budget and days, status planning. */
  function NewRecord(timestamp: int, owner: string, destination: string, budget: int, days: int): (r: StoredRecord)
    ensures Codec.DecryptNumber(r.budget) == Codec.Number(budget)
    ensures Codec.DecryptNumber(r.days) == Codec.Number(days)
    ensures r.status == Some(Planning)
  {
    Codec.DecryptEncrypt(budget);
    Codec.DecryptEncrypt(days);
    StoredRecord(Codec.EncryptNumber(budget), Codec.EncryptNumber(days), timestamp, owner, destination, Some(Planning))
  }

  /** The index key holds a JSON object, which parses but is no list: a
      reload cannot iterate it and a create cannot push onto it. */
  predicate IndexIsObject(store: Store) {
    Get(store, IndexKey).Rec?
  }

  /** The storage after submitRecord: the record is written first; then the
      index is read back and, unless it is an object, written with the id
      appended. */
  function AfterCreate(store: Store, id: string, r: StoredRecord): (after: Store)
    ensures id != "keys" ==> Get(after, RecordKey(id)) == Rec(r)
    ensures forall k :: k != IndexKey && k != RecordKey(id) ==> Get(after, k) == Get(store, k)
  {
    var written := store[RecordKey(id) := Rec(r)];
    if IndexIsObject(written) then written
    else written[IndexKey := Keys(IndexIds(written) + [id])]
  }

  /** How submitRecord ends, in the order the source checks. The id "keys"
      names the index key itself, so its record is read back as the index. */
  function CreateOutcome(account: Option<string>, contractReady: bool, store: Store, id: string): (o: Outcome)
    ensures o.Failed? ==> o.reason != RecordNotFound && o.reason != UnreadableRecord
    ensures o == Done <==> account.Some? && contractReady && id != "keys" && !IndexIsObject(store)
  {
    if account.None? then Failed(WalletNotConnected)
    else if !contractReady then Failed(NoSignerContract)
    else if id == "keys" || IndexIsObject(store) then Failed(IndexNotAList)
    else Done
  }

  /** The storage after bookTrip or cancelTrip: only the status of a readable
      record changes. */
  function AfterStatus(store: Store, id: string, s: Status): (after: Store)
    ensures after.Keys == store.Keys
  {
    match Get(store, RecordKey(id))
    case Rec(fields) => store[RecordKey(id) := Rec(fields.(status := Some(s)))]
    case _ => store
  }

  /** How bookTrip and cancelTrip end, in the order the source checks. */
  function StatusOutcome(account: Option<string>, contractReady: bool, store: Store, id: string): (o: Outcome)
    ensures o == Done ==> Get(store, RecordKey(id)).Rec?
    ensures o == Failed(RecordNotFound) ==> Get(store, RecordKey(id)) == Empty
  {
    if account.None? then Failed(WalletNotConnected)
    else if !contractReady then Failed(NoSignerContract)
    else match Get(store, RecordKey(id))
      case Empty => Failed(RecordNotFound)
      case Rec(_) => Done
      case _ => Failed(UnreadableRecord)
  }

  /** A status write on an id whose key holds nothing fails as not found and
      leaves the storage as it was. */
  lemma MissingRecordNotFound(store: Store, id: string, account: string, s: Status)
    requires Get(store, RecordKey(id)) == Empty
    ensures StatusOutcome(Some(account), true, store, id) == Failed(RecordNotFound)
    ensures AfterStatus(store, id, s) == store
  {
  }

  /** Create stores a planning record under its key and appends its id to the
      index (an unreadable index restarts as [id]); nothing else changes. */
  lemma CreateAppendsToIndex(store: Store, id: string, r: StoredRecord)
    requires id != "keys" && !IndexIsObject(store)
    ensures var after := AfterCreate(store, id, r);
            && IndexIds(after) == IndexIds(store) + [id]
            && Get(after, RecordKey(id)) == Rec(r)
            && forall k :: k != IndexKey && k != RecordKey(id) ==> Get(after, k) == Get(store, k)
  {
    var written := store[RecordKey(id) := Rec(r)];
    assert Get(written, IndexKey) == Get(store, IndexKey);
  }

  /** After a create, the id is in the index and a reload lists a planning
      record with that id whose budget and days decode to the submitted values. */
  lemma CreateThenReload(store: Store, id: string, timestamp: int, owner: string, destination: string, budget: int, days: int)
    requires id != "keys" && !IndexIsObject(store)
    ensures var after := AfterCreate(store, id, NewRecord(timestamp, owner, destination, budget, days));
            && id in IndexIds(after)
            && exists t :: t in Reloaded(after) && t.id == id && t.status == Planning && t.owner == owner
                 && t.destination == destination && t.timestamp == timestamp
                 && Codec.DecryptNumber(t.encryptedBudget) == Codec.Number(budget)
                 && Codec.DecryptNumber(t.encryptedDays) == Codec.Number(days)
  {
    var r := NewRecord(timestamp, owner, destination, budget, days);
    var after := AfterCreate(store, id, r);
    CreateAppendsToIndex(store, id, r);
    var ids := IndexIds(after);
    assert ids[..|ids| - 1] == IndexIds(store);
    var c := Collect(after, ids);
    var t := FromStored(id, r);
    assert c == Collect(after, IndexIds(store)) + [t];
    Sorting.NewestFirstPermutes(c);
    assert t in multiset(Reloaded(after));
    Codec.DecryptEncrypt(budget);
    Codec.DecryptEncrypt(days);
  }

  /** What the Create button lets through shows up in the reload: a record
      with a destination and a budget that decodes to a positive number. */
  lemma EnabledCreateListsValidPlan(store: Store, id: string, timestamp: int, owner: string, destination: string, budget: int, days: int)
    requires View.CreateEnabled(false, destination, budget)
    requires id != "keys" && !IndexIsObject(store)
    ensures var after := AfterCreate(store, id, NewRecord(timestamp, owner, destination, budget, days));
            exists t :: t in Reloaded(after) && t.id == id && t.destination != []
              && Codec.DecryptNumber(t.encryptedBudget).Number? && Codec.DecryptNumber(t.encryptedBudget).value > 0
  {
    CreateThenReload(store, id, timestamp, owner, destination, budget, days);
  }

  /** A create that fails at the index leaves its record written and the
      object index as it was, so every later reload is refused as well and
      the record stays out of the list. */
  lemma FailedCreateOrphansRecord(store: Store, id: string, r: StoredRecord)
    requires id != "keys" && IndexIsObject(store)
    ensures var after := AfterCreate(store, id, r);
            && Get(after, RecordKey(id)) == Rec(r)
            && Get(after, IndexKey) == Get(store, IndexKey)
            && IndexIsObject(after)
  {
  }

  /** A status write leaves the index and every other key as they were, and
      the record keeps all its fields but the status. */
  lemma StatusChangesOnlyStatus(store: Store, id: string, s: Status)
    ensures var after := AfterStatus(store, id, s);
            && IndexIds(after) == IndexIds(store)
            && (forall k :: k != RecordKey(id) ==> Get(after, k) == Get(store, k))
            && (Get(store, RecordKey(id)).Rec? ==>
                  Get(after, RecordKey(id)).Rec? &&
                  FromStored(id, Get(after, RecordKey(id)).fields) == FromStored(id, Get(store, RecordKey(id)).fields).(status := s))
            && (!Get(store, RecordKey(id)).Rec? ==> after == store)
  {
  }

  lemma EntryAfterStatus(store: Store, other: string, id: string, s: Status)
    ensures Entry(AfterStatus(store, id, s), other) == Sorting.Restatus(Entry(store, other), id, s)
  {
    if other != id && RecordKey(other) == RecordKey(id) {
      RecordKeyInjective(other, id);
    }
  }

  lemma {:induction false} CollectAfterStatus(store: Store, ids: seq<string>, id: string, s: Status)
    ensures Collect(AfterStatus(store, id, s), ids) == Sorting.Restatus(Collect(store, ids), id, s)
  {
    if ids != [] {
      var init, last := ids[..|ids| - 1], ids[|ids| - 1];
      CollectAfterStatus(store, init, id, s);
      EntryAfterStatus(store, last, id, s);
      Sorting.RestatusAppend(Collect(store, init), Entry(store, last), id, s);
    }
  }

  /** After a status write, a reload gives the same list in the same order,
      with only that record's status changed. */
  lemma ReloadAfterStatus(store: Store, id: string, s: Status)
    ensures Reloaded(AfterStatus(store, id, s)) == Sorting.Restatus(Reloaded(store), id, s)
  {
    StatusChangesOnlyStatus(store, id, s);
    CollectAfterStatus(store, IndexIds(store), id, s);
    Sorting.NewestFirstRestatus(Collect(store, IndexIds(store)), id, s);
  }

  /** Every collected record comes from a readable record under its own key. */
  lemma {:induction false} CollectedAreReadable(store: Store, ids: seq<string>)
    ensures forall t :: t in Collect(store, ids) ==> Get(store, RecordKey(t.id)).Rec?
  {
    if ids != [] {
      CollectedAreReadable(store, ids[..|ids| - 1]);
    }
  }

  /** A Book or Cancel pressed on a listed record, with a wallet and a signer,
      finds the record and writes it. */
  lemma ListedRecordIsWritable(store: Store, t: TravelRecord, account: string)
    requires t in Reloaded(store)
    ensures StatusOutcome(Some(account), true, store, t.id) == Done
  {
    var c := Collect(store, IndexIds(store));
    Sorting.NewestFirstPermutes(c);
    assert t in multiset(c);
    CollectedAreReadable(store, IndexIds(store));
  }

  /** Booking and then cancelling leaves the record cancelled. */
  lemma BookThenCancel(store: Store, id: string)
    requires Get(store, RecordKey(id)).Rec?
    ensures var after := AfterStatus(AfterStatus(store, id, Booked), id, Cancelled);
            && Get(after, RecordKey(id)).Rec?
            && FromStored(id, Get(after, RecordKey(id)).fields).status == Cancelled
  {
  }

  /** Whether loadRecords replaces the list: a contract is there, it is
      available, and the index is not an object. */
  predicate Reloads(app: TravelApp)
    reads app
  {
    app.contractReady && app.available && !IndexIsObject(app.store)
  }

  class TravelApp {
    /** The contract's storage. */
    var store: Store
    /** Whether the contract helper returns a contract object. */
    var contractReady: bool
    /** What the contract's isAvailable() answers. */
    var available: bool
    /** The connected wallet address; None when no wallet is connected. */
    var account: Option<string>
    /** The list the view shows. */
    var records: seq<TravelRecord>
    /** The keys passed to setData, in the order of the calls. */
    ghost var writes: seq<string>

    constructor (store: Store, contractReady: bool, available: bool, account: Option<string>)
      ensures this.store == store && this.contractReady == contractReady
      ensures this.available == available && this.account == account
      ensures records == [] && writes == []
    {
      this.store := store;
      this.contractReady := contractReady;
      this.available := available;
      this.account := account;
      records := [];
      writes := [];
    }

    /** loadRecords: without a contract, when the contract is not available,
        or when the index is an object that cannot be iterated, the list stays
        as it was; otherwise it becomes the reload of the storage, so two
        reloads with no write between give the same list. */
    method LoadRecords()
      modifies this`records
      ensures Reloads(this) ==> records == Reloaded(store)
      ensures !Reloads(this) ==> records == old(records)
    {
      if !contractReady || !available || IndexIsObject(store) {
        return;
      }
      var list := CollectRecords(IndexIds(store));
      var a := new TravelRecord[|list|](k requires 0 <= k < |list| => list[k]);
      assert a[..] == list;
      Sorting.SortNewestFirst(a);
      records := a[..];
    }

    /** The loop of loadRecords: each id's record is read and kept when it
        parses; empty and unreadable payloads are skipped. */
    method CollectRecords(keys: seq<string>) returns (list: seq<TravelRecord>)
      ensures list == Collect(store, keys)
    {
      list := [];
      for i := 0 to |keys|
        invariant list == Collect(store, keys[..i])
      {
        assert keys[..i + 1][..i] == keys[..i];
        match Get(store, RecordKey(keys[i])) {
          case Rec(fields) =>
            list := list + [FromStored(keys[i], fields)];
          case _ =>
        }
      }
      assert keys[..|keys|] == keys;
    }

    /** submitRecord, with the id and the timestamp given. */
    method SubmitRecord(id: string, timestamp: int, destination: string, budget: int, days: int)
      returns (outcome: Outcome)
      modifies this`store, this`records, this`writes
      ensures outcome == CreateOutcome(account, contractReady, old(store), id)
      ensures account.Some? && contractReady ==>
                && store == AfterCreate(old(store), id, NewRecord(timestamp, account.value, destination, budget, days))
                && writes == old(writes) + [RecordKey(id)] + (if outcome == Done then [IndexKey] else [])
      ensures !(account.Some? && contractReady) ==> store == old(store) && writes == old(writes)
      ensures records == (if outcome == Done && Reloads(this) then Reloaded(store) else old(records))
    {
      if account.None? {
        return Failed(WalletNotConnected);
      }
      var encryptedBudget := Codec.EncryptNumber(budget);
      var encryptedDays := Codec.EncryptNumber(days);
      if !contractReady {
        return Failed(NoSignerContract);
      }
      var recordData := StoredRecord(encryptedBudget, encryptedDays, timestamp, account.value, destination, Some(Planning));
      assert recordData == NewRecord(timestamp, account.value, destination, budget, days);
      var indexed := WriteAndReload(id, recordData);
      outcome := if indexed then Done else Failed(IndexNotAList);
    }

    /** The store part of submitRecord: the record is written, the index is
        read back and written with the id appended, then the list is reloaded.
        An index that is an object stops it after the first write. */
    method WriteAndReload(id: string, recordData: StoredRecord) returns (indexed: bool)
      modifies this`store, this`records, this`writes
      ensures indexed == !(id == "keys" || IndexIsObject(old(store)))
      ensures store == AfterCreate(old(store), id, recordData)
      ensures writes == old(writes) + [RecordKey(id)] + (if indexed then [IndexKey] else [])
      ensures records == (if indexed && Reloads(this) then Reloaded(store) else old(records))
    {
      indexed := WriteRecordAndIndex(id, recordData);
      if indexed {
        LoadRecords();
      }
    }

    /** The two setData calls of submitRecord, in their order. */
    method WriteRecordAndIndex(id: string, recordData: StoredRecord) returns (indexed: bool)
      modifies this`store, this`writes
      ensures indexed == !(id == "keys" || IndexIsObject(old(store)))
      ensures store == AfterCreate(old(store), id, recordData)
      ensures writes == old(writes) + [RecordKey(id)] + (if indexed then [IndexKey] else [])
    {
      store := store[RecordKey(id) := Rec(recordData)];
      writes := writes + [RecordKey(id)];
      if IndexIsObject(store) {
        return false;
      }
      var keys := IndexIds(store);
      keys := keys + [id];
      store := store[IndexKey := Keys(keys)];
      writes := writes + [IndexKey];
      indexed := true;
    }

    /** The shared body of bookTrip and cancelTrip. */
    method UpdateStatus(id: string, s: Status) returns (outcome: Outcome)
      modifies this`store, this`records, this`writes
      ensures outcome == StatusOutcome(account, contractReady, old(store), id)
      ensures store == (if outcome == Done then AfterStatus(old(store), id, s) else old(store))
      ensures writes == (if outcome == Done then old(writes) + [RecordKey(id)] else old(writes))
      ensures records == (if outcome == Done && Reloads(this) then Reloaded(store) else old(records))
    {
      if account.None? {
        return Failed(WalletNotConnected);
      }
      if !contractReady {
        return Failed(NoSignerContract);
      }
      var payload := Get(store, RecordKey(id));
      if payload == Empty {
        return Failed(RecordNotFound);
      }
      if !payload.Rec? {
        return Failed(UnreadableRecord);
      }
      store := store[RecordKey(id) := Rec(payload.fields.(status := Some(s)))];
      writes := writes + [RecordKey(id)];
      LoadRecords();
      outcome := Done;
    }

    /** bookTrip: the record's status becomes booked. */
    method BookTrip(id: string) returns (outcome: Outcome)
      modifies this`store, this`records, this`writes
      ensures outcome == StatusOutcome(account, contractReady, old(store), id)
      ensures store == (if outcome == Done then AfterStatus(old(store), id, Booked) else old(store))
      ensures writes == (if outcome == Done then old(writes) + [RecordKey(id)] else old(writes))
      ensures records == (if outcome == Done && Reloads(this) then Reloaded(store) else old(records))
    {
      outcome := UpdateStatus(id, Booked);
    }

    /** cancelTrip: the record's status becomes cancelled. */
    method CancelTrip(id: string) returns (outcome: Outcome)
      modifies this`store, this`records, this`writes
      ensures outcome == StatusOutcome(account, contractReady, old(store), id)
      ensures store == (if outcome == Done then AfterStatus(old(store), id, Cancelled) else old(store))
      ensures writes == (if outcome == Done then old(writes) + [RecordKey(id)] else old(writes))
      ensures records == (if outcome == Done && Reloads(this) then Reloaded(store) else old(records))
    {
      outcome := UpdateStatus(id, Cancelled);
    }
  }
}

=== FILE: view.dfy ===
/**
 * What the list view derives from the in-memory records: the search and
 * status filter, the per-status counts, the owner check and the action
 * buttons. The buttons are the only place where status changes are limited.
 */
module View {
  import opened Wrappers
  import opened Records

  /** `toLowerCase` on ASCII letters. */
  function LowerChar(c: char): (l: char)
    ensures !('A' <= l <= 'Z')
    ensures 'a' <= c <= 'z' ==> l == c
  {
    if 'A' <= c <= 'Z' then (c as int - 'A' as int + 'a' as int) as char else c
  }

  function Lower(s: string): (r: string)
    ensures |r| == |s| && forall i :: 0 <= i < |s| ==> r[i] == LowerChar(s[i])
  {
    seq(|s|, i requires 0 <= i < |s| => LowerChar(s[i]))
  }

  lemma LowerIdempotent(s: string)
    ensures Lower(Lower(s)) == Lower(s)
  {
    var l := Lower(s);
    forall i | 0 <= i < |s| ensures Lower(l)[i] == l[i] {
      assert !('A' <= l[i] <= 'Z');
    }
  }

  /** `includes`: needle occurs in hay at some position; the empty needle
      occurs everywhere. */
  function Contains(hay: string, needle: string): (b: bool)
    ensures needle == [] ==> b
    ensures b ==> |needle| <= |hay|
  {
    assert needle <= hay[0..] || needle != [];
    exists i :: 0 <= i <= |hay| && needle <= hay[i..]
  }

  /** The status select: "all" or one status. */
  datatype StatusFilter = All | Only(status: Status)

  /** The card test of filteredRecords: the lowercased destination contains
      the lowercased search, and the status passes the select. An empty search
      lets every destination through. */
  function Matches(r: TravelRecord, search: string, filter: StatusFilter): (b: bool)
    ensures search == [] ==> (b <==> filter.All? || r.status == filter.status)
  {
    assert search == [] ==> Lower(search) <= Lower(r.destination)[0..];
    && Contains(Lower(r.destination), Lower(search))
    && (filter.All? || r.status == filter.status)
  }

  /** filteredRecords. */
  function Filtered(records: seq<TravelRecord>, search: string, filter: StatusFilter): (v: seq<TravelRecord>)
    ensures |v| <= |records|
    ensures forall r :: r in v <==> r in records && Matches(r, search, filter)
    ensures forall r :: multiset(v)[r] == (if Matches(r, search, filter) then multiset(records)[r] else 0)
  {
    if records == [] then []
    else
      var rest := Filtered(records[1..], search, filter);
      assert records == [records[0]] + records[1..];
      assert multiset(records) == multiset{records[0]} + multiset(records[1..]);
      if Matches(records[0], search, filter) then [records[0]] + rest else rest
  }

  /** a is b with some elements left out, the rest in their order. */
  ghost predicate IsSubsequence(a: seq<TravelRecord>, b: seq<TravelRecord>)
    decreases |b|
  {
    if b == [] then a == []
    else (a != [] && a[0] == b[0] && IsSubsequence(a[1..], b[1..])) || IsSubsequence(a, b[1..])
  }

  /** The filtered view keeps the order of the list. */
  lemma {:induction false} FilteredIsSubsequence(records: seq<TravelRecord>, search: string, filter: StatusFilter)
    ensures IsSubsequence(Filtered(records, search, filter), records)
    decreases |records|
  {
    if records != [] {
      FilteredIsSubsequence(records[1..], search, filter);
      var v := Filtered(records, search, filter);
      if Matches(records[0], search, filter) {
        assert v[1..] == Filtered(records[1..], search, filter);
      }
    }
  }

  /** The example of the search "par" over Paris and Tokyo. */
  lemma SearchExample(paris: TravelRecord, tokyo: TravelRecord)
    requires paris.destination == "Paris" && tokyo.destination == "Tokyo"
    ensures Filtered([paris, tokyo], "par", All) == [paris]
  {
    var par, tokyoLower := Lower("par"), Lower("Tokyo");
    assert par == "par";
    assert par <= Lower("Paris")[0..];
    assert Matches(paris, "par", All);
    forall i | 0 <= i <= |tokyoLower| ensures !(par <= tokyoLower[i..]) {
      if i < |tokyoLower| {
        assert tokyoLower[i..][0] == tokyoLower[i] == LowerChar("Tokyo"[i]);
      }
    }
    assert !Matches(tokyo, "par", All);
    assert [paris, tokyo][1..] == [tokyo];
    assert [tokyo][1..] == [];
  }

  /** planningCount, bookedCount, cancelledCount. */
  function Count(records: seq<TravelRecord>, s: Status): (n: nat)
    ensures n <= |records|
  {
    if records == [] then 0
    else (if records[0].status == s then 1 else 0) + Count(records[1..], s)
  }

  /** The three counts cover the list. */
  lemma {:induction false} CountsSum(records: seq<TravelRecord>)
    ensures Count(records, Planning) + Count(records, Booked) + Count(records, Cancelled) == |records|
  {
    if records != [] {
      CountsSum(records[1..]);
    }
  }

  /** A count is the size of the view filtered on that status with no search. */
  lemma {:induction false} CountIsFilteredSize(records: seq<TravelRecord>, s: Status)
    ensures Count(records, s) == |Filtered(records, "", Only(s))|
  {
    if records != [] {
      CountIsFilteredSize(records[1..], s);
      assert Contains(Lower(records[0].destination), Lower("")) by {
        assert Lower("") == [];
        assert Lower("") <= Lower(records[0].destination)[0..];
      }
    }
  }

  /** isOwner: the connected address equals the owner, ignoring case; with no
      wallet connected nobody is the owner. */
  function IsOwner(account: Option<string>, owner: string): (b: bool)
    ensures account.None? ==> !b
  {
    account.Some? && Lower(account.value) == Lower(owner)
  }

  lemma OwnerIgnoresCase(a: string, owner: string)
    ensures IsOwner(Some(a), owner) == IsOwner(Some(Lower(a)), owner) == IsOwner(Some(a), Lower(owner))
    ensures IsOwner(Some(a), owner) == IsOwner(Some(owner), a)
    ensures IsOwner(Some(owner), owner)
  {
    LowerIdempotent(a);
    LowerIdempotent(owner);
  }

  /** The Create button of the form: enabled while no create is running, with
      a destination and a positive budget. */
  predicate CreateEnabled(creating: bool, destination: string, budget: int) {
    !creating && destination != [] && budget > 0
  }

  datatype Action = Book | Cancel

  /** The status an action writes. */
  function Target(a: Action): Status {
    if a == Book then Booked else Cancelled
  }

  /** The buttons a record card and the detail view show. */
  function Actions(account: Option<string>, r: TravelRecord): (acts: set<Action>)
    ensures Book in acts <==> IsOwner(account, r.owner) && r.status == Planning
    ensures Cancel in acts <==> IsOwner(account, r.owner) && r.status != Cancelled
  {
    if !IsOwner(account, r.owner) then {}
    else (if r.status == Planning then {Book} else {}) + (if r.status != Cancelled then {Cancel} else {})
  }

  /** The status changes the interface can make. */
  predicate AllowedTransition(from: Status, to: Status) {
    || (from == Planning && to == Booked)
    || (from == Planning && to == Cancelled)
    || (from == Booked && to == Cancelled)
  }

  /** Every offered action is one of the three allowed changes, and every
      allowed change is offered to the owner. */
  lemma ActionsAreAllowedTransitions(account: Option<string>, r: TravelRecord)
    ensures forall a :: a in Actions(account, r) ==> AllowedTransition(r.status, Target(a))
    ensures forall to :: AllowedTransition(r.status, to) && IsOwner(account, r.owner) ==>
              exists a :: a in Actions(account, r) && Target(a) == to
  {
    forall to | AllowedTransition(r.status, to) && IsOwner(account, r.owner)
      ensures exists a :: a in Actions(account, r) && Target(a) == to
    {
      var a := if to == Booked then Book else Cancel;
      assert a in Actions(account, r) && Target(a) == to;
    }
  }
}

=== FILE: wrappers.dfy ===
/** The optional-value datatype shared by the other modules. */
module Wrappers {

  datatype Option<+T> = None | Some(value: T)
}
